=== FILE: README.md ===
# Doodle Art: a Dafny model of the sketch-to-artwork front end and its backend helpers

This project models the decision and state logic of the Doodle Art application. A user draws on
a canvas or uploads an image. The sketch is sent to a generation backend, and the page shows
the generated image. The model covers these parts:

- **Upload route** (`UploadRoute`): the `POST` handler checks the form's `file` entry in a fixed
  order: present, then an `image/` type, then at most 10 MiB. It answers with an RFC 2397 data URL
  of the bytes, or with a 400/500 JSON error.
- **Transform relay** (`TransformRoute`): the `POST` handler refuses a falsy `sketch`. Otherwise it
  forwards the sketch unchanged to `<backend>/transform-sketch` with a 30 000 ms timeout. It sorts
  the backend's outcome into success, non-ok status, missing `image`, timeout or network error.
- **Page** (`Page`): the single `SketchItem` record, the `isTransforming` flag and the sketch type.
  Upload, clear-result and transform drive them. A transform is modelled as two steps, up to the
  `fetch` and from its response on, so that other events can come in between. `handleTransform`
  awaits three times (`fetch`, `response.blob()`, the `FileReader` promise), but nothing between
  the first await and the final `setSketch` writes state, and `setSketch` there takes a value
  rather than an updater, so the two-step split loses no interleaving.
- **Sidebar** (`Sidebar`): the 10 MiB client-side gate and the per-sketch error map. It also holds
  the id being transformed and which controls each history entry shows.
- **Result viewer** (`TransformedImage`): the choice between busy indicator, image and placeholder.
  Also the guarded Download (file name `transformed-<epoch ms>.png`) and Clear buttons.
- **Canvas editor** (`SketchCanvas`): the tool, the line width and the drawing flag. The surface is
  a map from integer cells to `White | Black | Transparent`. The model gives the effect of mount,
  clear, pen and eraser on it.
- **Backend helpers** (`ApiUtils`): the 0/255 inversion and the centring on a white `max(h, w)`
  square in `edge_detect_sketch`. Also `norm`/`denorm`, the output quantisation, the object/scene
  dispatch, and the best-of-N selection that keeps the first sample with the strictly highest score.

Shared modules: `Js` (JSON-shaped values, truthiness, property reads that throw, thrown values),
`Decimal` (`String(n)` for non-negative integers and its inverse parser) and `Text` (`startsWith`,
`split`/`join` on one character, and the base64 alphabet of section 4 of RFC 4648).

Foreign code becomes function-typed parameters. This covers `Buffer` base64, `atob`, `fetch`,
`FileReader`, `JSON.stringify`, `toDataURL`, pen rasterisation, OpenCV binarisation, and the
generator and discriminator. The clock (`Date.now()`, `new Date()`) becomes plain parameters.

Behaviour of the code worth knowing when reading the model:
- Line width: the width setter does not clamp; only the slider's `min`/`max` keep the width in
  1..20 (`SketchCanvas.SetLineWidth`, `SketchCanvas.WidthStaysInSliderRange`).
- Clear: `clearCanvas` only repaints the surface white. It does not reset the current path.
- Timeout: a timeout is answered like any other failure: 500, with the abort message in `details`.
- Overlap: nothing stops a second transform while one is in flight. The first to settle clears the
  busy flag, and the last to succeed decides the stored sketch (`Page.OverlapClearsBusyEarly`,
  `Page.StaleTransformOverwrites`).
- Prop mismatch: `page.tsx` passes `onUpload`/`onTransform`/`sketchType` props to a canvas that
  declares only `onSave`. Each file is modelled as written. `Page.BeginTransform` is what
  `onTransform` would run, and `SketchCanvas.SaveSketch` is what `onSave` receives.

## Model

| member | source | states |
|---|---|---|
| UploadRoute.Post | frontend/app/api/upload/route.ts:7-47 | No `file` entry (or an empty text entry) gives 400 "No file provided". A non-image type gives 400 "File must be an image" whatever the size. An image over 10 MiB gives 400 "File size exceeds 10MB limit". Anything thrown gives 500 "Failed to process upload", including the throw at `file.type.startsWith` for a non-empty text entry. Status 200 happens exactly for an image of at most 10 MiB whose bytes were read. Its record echoes name and size and has `fileUrl` = `data:<type>;base64,<base64 of bytes>`. No other status carries `success` or `fileUrl`. |
| UploadRoute.TypeCheckedBeforeSize | frontend/app/api/upload/route.ts:12-25 | A non-image file of any size gets the type error, never the size error. |
| UploadRoute.SizeBoundary | frontend/app/api/upload/route.ts:22-25 | Exactly 10·1024·1024 bytes is accepted. One byte more is refused with the size error. |
| UploadRoute.Failure | frontend/app/api/upload/route.ts:40-45 | The catch reply has status 500 and error "Failed to process upload". It never has a `success` field. |
| UploadRoute.SuccessUrlSplitsAtComma | frontend/app/api/upload/route.ts:28-39 | The returned `fileUrl` splits at its comma into exactly the `data:<type>;base64` header and the base64 text of the bytes. |
| TransformRoute.BackendUrl | frontend/app/api/transform-sketch/route.ts:41 | The backend URL is the variable's value when it is set and non-empty, and "http://localhost:8000" otherwise. |
| TransformRoute.Forward | frontend/app/api/transform-sketch/route.ts:45-56 | The forwarded request goes to `<backend>/transform-sketch`. Its body is `{sketch}` with the sketch unchanged, and its timeout is 30000 ms. |
| TransformRoute.Classify | frontend/app/api/transform-sketch/route.ts:39-75 | A timeout or network error is an error, never a success. A non-ok status throws "Backend error: <status> - <error data>", where the error data falls back to `{error: statusText}`. An ok body that is not JSON throws the parse error. An ok JSON body of any kind (object, array or primitive) without a truthy `image` throws "No image returned from backend". Success happens exactly for an ok status whose JSON has a truthy `image`, and it returns that `image`. |
| TransformRoute.Post | frontend/app/api/transform-sketch/route.ts:12-33 | A null or unparsable body gives 500 and contacts no backend. A falsy `sketch` gives 400 "No sketch provided" and contacts no backend. Otherwise the sketch is forwarded unchanged. The reply is `{success: true, image}` with the backend's `image` on success, and 500 "Failed to transform sketch" on any failure. |
| TransformRoute.Failure | frontend/app/api/transform-sketch/route.ts:26-32 | Every thrown error becomes a 500 reply with error "Failed to transform sketch". |
| TransformRoute.ServerErrorIsReported | frontend/app/api/transform-sketch/route.ts:58-61 | A backend answering HTTP 500 makes the relay answer 500. Its `details` hold the status message naming 500. |
| TransformRoute.StatusReadableFromMessage | frontend/app/api/transform-sketch/route.ts:60 | The status can be parsed back out of the status error message. |
| Page.UploadLoaded | frontend/app/page.tsx:20-32 | A completed read replaces the sketch with a fresh record: id from the clock, the data URL, the timestamp and no result. A failed read changes nothing. |
| Page.DistinctClocksDistinctIds | frontend/app/page.tsx:20-32 | Uploads loaded at different `Date.now()` readings get different sketch ids. |
| Page.ClearResult | frontend/app/page.tsx:34-38 | Clear-result removes only `transformedImage`. It keeps id, image data and timestamp, and does nothing when there is no sketch. |
| Page.ChangeSketchType | frontend/app/page.tsx:121-125 | Only the sketch type changes. |
| Text.Split | frontend/app/page.tsx:65 | `split(",")` gives at least one piece and no piece contains a comma. |
| Text.JoinSplit | frontend/app/page.tsx:65 | Splitting at commas loses nothing: joining the pieces with commas restores the string. |
| Page.Base64Part | frontend/app/page.tsx:65 | The text handed to `atob` is the second comma-separated piece when there is a comma, and "undefined" when there is none. |
| Page.Base64PartOfDataUrl | frontend/app/page.tsx:65 | For `header,payload` with no comma in either part, the extracted text is exactly the payload. |
| Page.Base64PartOfBase64DataUrl | frontend/app/page.tsx:65 | For a data URL whose payload is base64 text (section 4 of RFC 4648 has no comma), the extracted text is the whole payload. |
| Page.CollectCharCodes | frontend/app/page.tsx:66-71 | The byte loop yields one entry per decoded character, each equal to that character's code, which is the sequence `CharCodes` that `Page.BeginTransform` sends. |
| Page.ToUint8Array | frontend/app/page.tsx:73 | The typed array has one byte per number. Each number already in 0..255 is kept as is. |
| Page.BinaryStringBytes | frontend/app/page.tsx:66-73 | For the binary string `atob` returns, the bytes sent are the characters' codes, and mapping them back to chars gives the string back. |
| Page.BeginTransform | frontend/app/page.tsx:50-88 | Empty image data fails "Sketch not found" and leaves the state (busy flag included) untouched. A decoder failure leaves the page idle. Otherwise the page becomes busy, and the request URL's `model_type` is the current sketch type. The request is multipart with field `file`, file name `sketch.png` and blob type `image/png`. The request bytes are the decoded payload, and the pending record has the input image data, the id from the clock and no result. The sketch itself is not touched. |
| Page.CompleteTransform | frontend/app/page.tsx:90-116 | On every outcome the page is idle afterwards. A non-ok status fails with "HTTP <status>". Any failure leaves everything but the busy flag unchanged. Success happens exactly for an ok status whose body converts to a data URL. It replaces the sketch with the submitted image and its single result. |
| Page.UninterruptedTransform | frontend/app/page.tsx:50-116 | With nothing in between, the page is busy during the call and idle after it. Failure restores the sketch. Success stores the input image with the result. |
| Page.OverlapClearsBusyEarly | frontend/app/page.tsx:50-116 | For two transforms begun one after the other, the first to settle leaves the page idle although the second is still in flight. If the second then succeeds it stores its own image and result. If it fails, the first's success stays. |
| Page.StaleTransformOverwrites | frontend/app/page.tsx:50-116 | If the later transform settles first, the earlier one settling afterwards with success replaces the newer sketch with the older image and its result. |
| Page.ViewerProps | frontend/app/page.tsx:150-154 | The viewer receives the sketch's result as `imageUrl`, the busy flag, and a Clear callback but no Download callback. |
| Page.ViewerClearEnabled | frontend/app/page.tsx:150-154 | The viewer's Clear Result reaches the page exactly when the sketch has a result, and it stays enabled while the spinner shows. |
| Page.ClearReturnsViewerToPlaceholder | frontend/app/page.tsx:150-154 | Clear-result on an idle page brings the viewer back to its placeholder. |
| Page.EchoScenario | frontend/app/page.tsx:105-108 | Against a backend echoing the image, the viewer shows the spinner while in flight, then the echoed image, then the placeholder after Clear Result. |
| Sidebar.SetError | frontend/components/sidebar.tsx:47 | An error-map update sets the targeted key and preserves every other entry. |
| Sidebar.FileSelect | frontend/components/sidebar.tsx:26-37 | No file: nothing happens. A file over 10 MiB sets the upload error and is not passed to `onUpload`. A file within the limit clears the upload error and is passed to `onUpload` exactly once. The upload error is on screen exactly after a refused file, and no other entry's display changes. |
| Sidebar.StartTransform | frontend/components/sidebar.tsx:39-41 | Starting marks that id as transforming and clears that id's error. |
| Sidebar.FinishTransform | frontend/components/sidebar.tsx:43-51 | Afterwards nothing is transforming. A failure stores its message under that id, or "Failed to transform sketch" for a non-Error. Success leaves the errors as they were. A thrown non-Error always leaves an error on screen for that id. |
| Sidebar.TransformClickEffect | frontend/components/sidebar.tsx:39-52 | A whole click changes only the clicked id's error: empty on success, the message on failure. It ends with nothing transforming. |
| Sidebar.ButtonOrBadge | frontend/components/sidebar.tsx:121-140 | Each entry shows exactly one of the Transform button and the "Transformed" badge. The button appears iff there is no (truthy) result, and it is disabled while its own id is transforming. |
| Sidebar.PreviewSource | frontend/components/sidebar.tsx:100 | The preview shows the result when there is one, and the original image otherwise. |
| Sidebar.SketchIdNeverUploadKey | frontend/components/sidebar.tsx:41 | A clock-based sketch id is never the "upload" key. |
| Sidebar.TransformKeepsUploadError | frontend/components/sidebar.tsx:39-51 | Transforming a sketch never alters or hides the upload error. |
| TransformedImage.DisplayOf | frontend/components/transformed-image.tsx:53-85 | Exactly one of spinner, image and placeholder is shown. Busy wins over an image, and an image wins over the placeholder. The image shown is `imageUrl`. |
| TransformedImage.HandleDownload | frontend/components/transformed-image.tsx:21-30 | Without `imageUrl` nothing happens and `onDownload` is not called. Otherwise the download targets `imageUrl` as "transformed-<epoch ms>.png". `onDownload` runs iff given and a download started. |
| TransformedImage.ClickDownload | frontend/components/transformed-image.tsx:101-110 | The Download button starts a download iff `imageUrl` is present. It never notifies without one. |
| TransformedImage.ClickClear | frontend/components/transformed-image.tsx:90-99 | Clear Result calls `onClear` exactly when a callback was given and the viewer would show a picture once idle. |
| TransformedImage.StaleResultStaysActionable | frontend/components/transformed-image.tsx:53-99 | While the spinner hides an earlier result, the badge is shown and Clear Result and Download stay enabled, because they follow `imageUrl` and not the busy flag. |
| TransformedImage.FilenameRoundTrip | frontend/components/transformed-image.tsx:26 | The download file name records the epoch time exactly, and it can be read back. |
| SketchCanvas.Initial | frontend/components/sketch-canvas.tsx:15-17 | The canvas starts with the pen, line width 3 and not drawing, with a freshly mounted surface. |
| SketchCanvas.Mount | frontend/components/sketch-canvas.tsx:19-33 | Mounting sizes the surface to the layout box and paints every cell white. |
| SketchCanvas.ClearCanvas | frontend/components/sketch-canvas.tsx:80-89 | Clear paints every cell white and changes nothing else: tool, width, drawing flag and the current path are kept. It is a no-op without a canvas. |
| SketchCanvas.StartDrawing | frontend/components/sketch-canvas.tsx:35-49 | Mousedown starts drawing and a new path at the point. Without a canvas it does nothing. |
| SketchCanvas.StopDrawing | frontend/components/sketch-canvas.tsx:76-78 | Stop drawing always ends drawing. |
| SketchCanvas.Erase | frontend/components/sketch-canvas.tsx:72 | Erasing makes the cells of the square transparent (not white) and leaves every other cell unchanged. |
| SketchCanvas.Stroke | frontend/components/sketch-canvas.tsx:64-70 | A pen stroke paints the covered cells black and leaves every other cell unchanged. |
| SketchCanvas.Draw | frontend/components/sketch-canvas.tsx:51-74 | Drawing is a no-op unless a stroke was started. The pen extends the path and strokes the whole path in black at the current width. The eraser clears its square at the current width. |
| SketchCanvas.SetLineWidth | frontend/components/sketch-canvas.tsx:136 | The setter stores the width as given, without clamping. |
| SketchCanvas.SliderValue | frontend/components/sketch-canvas.tsx:130-136 | The slider only reports widths in 1..20, and any value already in range is reported as is. |
| SketchCanvas.Step | frontend/components/sketch-canvas.tsx:163-171 | Mousedown on a canvas starts drawing. Mouseup and mouseleave both end it. The toolbar events set the tool and the slider width. |
| SketchCanvas.SaveSketch | frontend/components/sketch-canvas.tsx:91-97 | Save passes the data URL of the current surface to `onSave`. Without a canvas it passes nothing. |
| SketchCanvas.RunKeepsSize | frontend/components/sketch-canvas.tsx:26-28 | No event resizes, creates or removes the surface after mounting. |
| SketchCanvas.ClearForgetsHistory | frontend/components/sketch-canvas.tsx:87-88 | After any drawing history, clear gives exactly the freshly mounted surface, so a save right after it equals a blank save. |
| SketchCanvas.ClearIdempotent | frontend/components/sketch-canvas.tsx:87-88 | Clearing twice is clearing once. |
| SketchCanvas.WidthStaysInSliderRange | frontend/components/sketch-canvas.tsx:130-136 | Through the toolbar, the width stays within 1..20 for any event sequence. |
| SketchCanvas.EraserSquareSpan | frontend/components/sketch-canvas.tsx:72 | The erased square is exactly the absolute value of the line width in cells along each axis, around the point. |
| SketchCanvas.DrawColours | frontend/components/sketch-canvas.tsx:64-73 | A pen move can only turn cells black. An eraser move can only make them transparent. |
| ApiUtils.Invert | backend/apiUtils.py:47 | `255 - v` swaps 0 and 255 and sums with its input to 255. |
| ApiUtils.InvertImage | backend/apiUtils.py:47 | The inverted image has the same shape, and each pixel sums with the original to 255. |
| ApiUtils.InvertInvolution | backend/apiUtils.py:47 | Inverting twice gives the image back. |
| ApiUtils.InvertKeepsBinary | backend/apiUtils.py:33-47 | The inversion maps the threshold's {0, 255} images to {0, 255} images. |
| ApiUtils.Side | backend/apiUtils.py:51 | The square's side is at least h and at least w, and equals one of them. |
| ApiUtils.Offset | backend/apiUtils.py:53-54 | The offset plus the extent fits in the side. The pasted region is centred, with at most one extra pixel after it. |
| ApiUtils.SquarePad | backend/apiUtils.py:49-55 | The result is side×side. Cells outside the pasted region are 255, and the pasted region holds the edges at the offsets. |
| ApiUtils.CropSquarePad | backend/apiUtils.py:52-55 | Cropping the pasted region back out of the square gives the edges exactly. |
| ApiUtils.EdgeDetectSketch | backend/apiUtils.py:19-55 | An unreadable image raises "Cannot read image!". Otherwise the result is the max(h, w) square, white outside the pasted region, from which the inverted edges crop back out. |
| ApiUtils.Norm | backend/apiUtils.py:68-69 | Over reals, `norm` maps [0, 1] onto [-1, 1]. |
| ApiUtils.Denorm | backend/apiUtils.py:71-72 | Over reals, `denorm` maps [-1, 1] onto [0, 1], and `norm(denorm(x)) = x`. |
| ApiUtils.DenormNorm | backend/apiUtils.py:68-72 | Over reals, `denorm(norm(x)) = x`. |
| ApiUtils.Quantize | backend/apiUtils.py:139-140 | Over reals, the output byte is 0 at or below 0 and 255 at or above 1. In between it is the truncation of 255·v. |
| ApiUtils.QuantizeMonotone | backend/apiUtils.py:139-140 | Quantisation preserves order. |
| ApiUtils.Preprocess | backend/apiUtils.py:111-114 | Both branches of the dispatch apply `preprocess_scene`. |
| ApiUtils.PreprocessIgnoresModelType | backend/apiUtils.py:111-114 | Preprocessing is identical for "object" and every other model type. |
| ApiUtils.SelectBest | backend/apiUtils.py:126-135 | The loop selects nothing iff there are no samples. Otherwise it selects the first sample with the maximal score: every score is at most it, and every earlier one is strictly below it. |
| ApiUtils.FirstMaxUnique | backend/apiUtils.py:133-135 | At most one index is the first maximum, so the selection is determined by the scores. |
| ApiUtils.ProcessAndGenerate | backend/apiUtils.py:104-142 | With no samples it raises, because `best_fake` stays `None`. Otherwise it returns the first generated sample whose discriminator score is maximal. |

## Left out

- Network I/O, `AbortSignal`'s real-time clock, the backend's FastAPI endpoints (backend/main.py is not part of this model): outcomes are datatypes (`BackendOutcome`, `FetchOutcome`) or function parameters.
- `FileReader`, `atob`, `Buffer` base64, `Blob`/`FormData`, `toDataURL` PNG encoding, `JSON.stringify` and `Date.now`: parameters, not modelled concretely. Facts that depend on the base64 encoder are stated for encoders whose output is base64 text.
- React rendering, CSS, layout classes, `console` logging, the timestamp's `toLocaleTimeString`, and the sidebar's list rendering and the `onDelete`/`onSelectSketch` pass-through callbacks, which hold no logic.
- Interleaving inside React's batching: a synchronous `atob` failure sets and then clears `isTransforming` in one batch. `Page.BeginTransform` gives only the net state (idle).
- SketchCanvas.Draw: the `isDrawing` read comes from the last render's closure. The model reads the current state, so a mousemove handled before the re-render that follows a mousedown is not modelled.
- SketchCanvas.Stroke: anti-aliased round caps and joins are not modelled. The covered cells come from a rasteriser parameter, and each covered cell becomes opaque black.
- SketchCanvas.Erase: `clearRect` at fractional coordinates partly clears edge pixels. The model clears exactly the cells whose centre lies in the rectangle, on integer mouse coordinates.
- Js.Value: numbers are integers, so NaN, fractions and infinities of JSON numbers are not modelled. Their truthiness would matter only for a `sketch` or `image` that is a number. Strings are sequences of Unicode code points, not UTF-16 code units, so `charCodeAt` (`Page.CharCodes`, `Page.CollectCharCodes`) agrees with the source only for characters below U+10000. That covers the binary strings a real `atob` returns, but the `atob` parameter is not constrained to return them. `Decimal.Show` is `String(n)` only below 10^21, where JavaScript switches to exponent form. Ids, statuses and file-name times are far below that.
- Engine-generated error messages (TypeError texts, the abort `DOMException` text) are represented by fixed strings. Only whether a value is an `Error` and its message matter to the model.
- ApiUtils.Norm, ApiUtils.Denorm, ApiUtils.DenormNorm, ApiUtils.Quantize: the source applies these to float32 tensors. The model uses exact reals, so the two round trips and the truncation hold over reals only. In float32, `denorm(norm(x))` can differ from `x` in the last bits, and tiny values can round to 0.
- ApiUtils.SelectBest: scores are reals, so a NaN or `-inf` discriminator score, which strict `>` would never select, is not modelled.
- ApiUtils.ProcessAndGenerate: the samples are abstract. `denorm`, clipping and `uint8` conversion of the chosen tensor are modelled per value by `ApiUtils.Denorm` and `ApiUtils.Quantize`, not over the tensor.
- ApiUtils.EdgeDetectSketch: grey conversion, blur, adaptive threshold, dilation, the resize to 256×256, the RGB conversion and the temporary file of `preprocess_object` are parameters or omitted. `preprocess_object` itself is never called by the dispatch.
- Neural-network code, training and evaluation scripts (backend/Train/*, modelTraining/*): floating-point tensor numerics and folder-walking I/O.

=== FILE: api_utils.dfy ===
/** The integer and selection steps of the generation backend
    (backend/apiUtils.py): the inversion and square padding of
    `edge_detect_sketch`, `norm`/`denorm`, the pixel quantisation of the output,
    the object/scene dispatch and the best-of-N selection of
    `process_and_generate`. Image operations of OpenCV/PIL and the networks are
    parameters. */
module ApiUtils {

  import opened Js

  /** A grey image: rows of pixel values. */
  type Gray = seq<seq<byte>>

  /** `img` has `h` rows of `w` pixels, as a NumPy array of shape (h, w) does. */
  predicate HasShape(img: Gray, h: nat, w: nat)
  {
    |img| == h && forall y :: 0 <= y < h ==> |img[y]| == w
  }

  /** `255 - v` on a `uint8` value. */
  function Invert(v: byte): (r: byte)
    ensures r == 0 <==> v == 255
    ensures r == 255 <==> v == 0
    ensures (r as int) + (v as int) == 255
  {
    255 - v
  }

  /** `255 - edges` on a whole image. */
  function InvertImage(img: Gray): (r: Gray)
    ensures |r| == |img|
    ensures forall y :: 0 <= y < |img| ==> |r[y]| == |img[y]|
    ensures forall y, x :: 0 <= y < |img| && 0 <= x < |img[y]| ==> (r[y][x] as int) + (img[y][x] as int) == 255
  {
    seq(|img|, y requires 0 <= y < |img| => seq(|img[y]|, x requires 0 <= x < |img[y]| => Invert(img[y][x])))
  }

  /** Inverting twice gives the image back. */
  lemma InvertInvolution(img: Gray)
    ensures InvertImage(InvertImage(img)) == img
  {
    var r := InvertImage(InvertImage(img));
    assert |r| == |img|;
    forall y | 0 <= y < |img|
      ensures r[y] == img[y]
    {
      assert |r[y]| == |img[y]|;
    }
  }

  /** A thresholded image: every pixel 0 or 255. */
  predicate IsBinary(img: Gray)
  {
    forall y, x :: 0 <= y < |img| && 0 <= x < |img[y]| ==> img[y][x] == 0 || img[y][x] == 255
  }

  /** Inversion maps a binary image to a binary image, swapping 0 and 255. */
  lemma InvertKeepsBinary(img: Gray)
    requires IsBinary(img)
    ensures IsBinary(InvertImage(img))
  {
  }

  /** The side of the square canvas for an h×w image: `max(h, w)`. */
  function Side(h: nat, w: nat): (side: nat)
    ensures h <= side && w <= side && (side == h || side == w)
  {
    if h >= w then h else w
  }

  /** `(side - n) // 2`, the offset that centres n pixels in `side`. */
  function Offset(side: nat, n: nat): (o: nat)
    requires n <= side
    ensures o + n <= side
    ensures o <= side - n - o <= o + 1
  {
    (side - n) / 2
  }

  /** Whether square cell (y, x) lies in the region the edges are pasted into. */
  predicate InPasted(h: nat, w: nat, y: int, x: int)
  {
    var side := Side(h, w);
    var yo := Offset(side, h);
    var xo := Offset(side, w);
    yo <= y < yo + h && xo <= x < xo + w
  }

  /** The white `max(h, w)` square with `edges` pasted at the centring offsets. */
  function SquarePad(edges: Gray, h: nat, w: nat): (square: Gray)
    requires HasShape(edges, h, w)
    ensures HasShape(square, Side(h, w), Side(h, w))
    ensures forall y, x :: 0 <= y < Side(h, w) && 0 <= x < Side(h, w) && !InPasted(h, w, y, x) ==>
              square[y][x] == 255
    ensures forall y, x :: 0 <= y < h && 0 <= x < w ==>
              square[Offset(Side(h, w), h) + y][Offset(Side(h, w), w) + x] == edges[y][x]
  {
    var side := Side(h, w);
    var yo := Offset(side, h);
    var xo := Offset(side, w);
    seq(side, y requires 0 <= y < side =>
      seq(side, x requires 0 <= x < side =>
        if yo <= y < yo + h && xo <= x < xo + w then edges[y - yo][x - xo] else 255))
  }

  /** The `h`×`w` window of `img` starting at row `y0`, column `x0`. */
  function Crop(img: Gray, y0: nat, x0: nat, h: nat, w: nat): Gray
    requires y0 + h <= |img|
    requires forall y :: y0 <= y < y0 + h ==> x0 + w <= |img[y]|
  {
    seq(h, y requires 0 <= y < h => img[y0 + y][x0..x0 + w])
  }

  /** Cropping the pasted region out of the square gives the edges back:
      padding loses nothing. */
  lemma CropSquarePad(edges: Gray, h: nat, w: nat)
    requires HasShape(edges, h, w)
    ensures var side := Side(h, w);
            Crop(SquarePad(edges, h, w), Offset(side, h), Offset(side, w), h, w) == edges
  {
    var side := Side(h, w);
    var square := SquarePad(edges, h, w);
    var c := Crop(square, Offset(side, h), Offset(side, w), h, w);
    forall y | 0 <= y < h
      ensures c[y] == edges[y]
    {
      var yo := Offset(side, h);
      var xo := Offset(side, w);
      forall x | 0 <= x < w
        ensures c[y][x] == edges[y][x]
      {
        assert c[y][x] == square[yo + y][xo + x];
      }
    }
  }

  /** A 2-D `uint8` NumPy array: its shape and its rows. */
  datatype Matrix = Matrix(h: nat, w: nat, rows: Gray)

  /** Matrices are rectangular. */
  type Image = a: Matrix | HasShape(a.rows, a.h, a.w) witness Matrix(0, 0, [])

  /** What `edge_detect_sketch` produces before the resize to 256×256, or the
      `ValueError` it raises. */
  datatype Sketch = Sketch(square: Image) | ReadFailed(message: string)

  const CannotReadMessage := "Cannot read image!"

  /** `edge_detect_sketch` up to the resize. `img` is what `cv2.imread`
      returns (`None` when it cannot read the file); `binarize` stands for grey
      conversion, blur, adaptive threshold and dilation. */
  function EdgeDetectSketch(img: Option<Image>, binarize: Image -> Image): (r: Sketch)
    ensures img.None? <==> r == ReadFailed(CannotReadMessage)
    ensures img.Some? ==>
              var b := binarize(img.value);
              var edges := InvertImage(b.rows);
              var side := Side(b.h, b.w);
              && r.Sketch?
              && r.square.h == side && r.square.w == side
              && Crop(r.square.rows, Offset(side, b.h), Offset(side, b.w), b.h, b.w) == edges
              && (forall y, x :: 0 <= y < side && 0 <= x < side && !InPasted(b.h, b.w, y, x) ==> r.square.rows[y][x] == 255)
  {
    match img
    case None => ReadFailed(CannotReadMessage)
    case Some(pixels) =>
      var b := binarize(pixels);
      var edges := InvertImage(b.rows);
      CropSquarePad(edges, b.h, b.w);
      Sketch(Matrix(Side(b.h, b.w), Side(b.h, b.w), SquarePad(edges, b.h, b.w)))
  }

  /** `norm`: maps the [0, 1] range of `ToTensor` onto [-1, 1]. */
  function Norm(x: real): (r: real)
    ensures 0.0 <= x <= 1.0 <==> -1.0 <= r <= 1.0
  {
    (x - 0.5) * 2.0
  }

  /** `denorm`: maps [-1, 1] back onto [0, 1], undoing `norm`. */
  function Denorm(x: real): (r: real)
    ensures -1.0 <= x <= 1.0 <==> 0.0 <= r <= 1.0
    ensures Norm(r) == x
  {
    (x + 1.0) / 2.0
  }

  /** `denorm` after `norm` is the identity too. */
  lemma DenormNorm(x: real)
    ensures Denorm(Norm(x)) == x
  {
  }

  /** `(np.clip(v, 0, 1) * 255).astype("uint8")`: clip, scale, truncate. */
  function Quantize(v: real): (b: byte)
    ensures v <= 0.0 ==> b == 0
    ensures v >= 1.0 ==> b == 255
    ensures 0.0 <= v <= 1.0 ==> (b as real) <= v * 255.0 < (b as real) + 1.0
  {
    var c := if v < 0.0 then 0.0 else if v > 1.0 then 1.0 else v;
    (c * 255.0).Floor
  }

  /** Quantisation preserves order. */
  lemma QuantizeMonotone(u: real, v: real)
    requires u <= v
    ensures Quantize(u) <= Quantize(v)
  {
  }

  /** The model types the API accepts. */
  const ObjectModel := "object"

  /** The preprocessing `process_and_generate` applies: both branches of the
      `model_type == "object"` test call `preprocess_scene`. */
  function Preprocess<Img>(modelType: string, imageBytes: seq<byte>, preprocessScene: seq<byte> -> Img): (r: Img)
    ensures r == preprocessScene(imageBytes)
  {
    if modelType == ObjectModel then preprocessScene(imageBytes) else preprocessScene(imageBytes)
  }

  /** The model type has no influence on the preprocessing. */
  lemma PreprocessIgnoresModelType<Img>(a: string, b: string, imageBytes: seq<byte>, preprocessScene: seq<byte> -> Img)
    ensures Preprocess(a, imageBytes, preprocessScene) == Preprocess(b, imageBytes, preprocessScene)
  {
  }

  /** `k` is the first index holding a maximal score. */
  predicate FirstMax(scores: seq<real>, k: nat)
  {
    && k < |scores|
    && (forall j :: 0 <= j < |scores| ==> scores[j] <= scores[k])
    && (forall j :: 0 <= j < k ==> scores[j] < scores[k])
  }

  /** The selection loop: keep a sample only when its score is strictly higher
      than the best so far. `None` is `best_fake` still `None`. */
  method SelectBest(scores: seq<real>) returns (best: Option<nat>)
    ensures best.None? <==> |scores| == 0
    ensures best.Some? ==> FirstMax(scores, best.value)
  {
    best := None;
    var bestScore: real := 0.0;
    var i := 0;
    while i < |scores|
      invariant 0 <= i <= |scores|
      invariant best.None? <==> i == 0
      invariant best.Some? ==> best.value < i && bestScore == scores[best.value]
      invariant best.Some? ==> forall j :: 0 <= j < i ==> scores[j] <= bestScore
      invariant best.Some? ==> forall j :: 0 <= j < best.value ==> scores[j] < bestScore
    {
      if best.None? || scores[i] > bestScore {
        bestScore := scores[i];
        best := Some(i);
      }
      i := i + 1;
    }
  }

  /** There is only one first maximum, so the selection is determined by the scores. */
  lemma FirstMaxUnique(scores: seq<real>, k: nat, m: nat)
    requires FirstMax(scores, k) && FirstMax(scores, m)
    ensures k == m
  {
    assert scores[k] <= scores[m] && scores[m] <= scores[k];
  }

  /** What `process_and_generate` returns or raises. */
  datatype Generated<Fake> = Generated(fake: Fake) | Raised(message: string)

  /** `process_and_generate` with `num_samples` draws. Draw `i` of the
      generator is `gen(input, i)`; `disc(input, fake)` is its mean score. With
      no draws `best_fake` is `None` and indexing it raises `TypeError`. */
  method ProcessAndGenerate<Img, Fake>(imageBytes: seq<byte>, modelType: string, numSamples: nat,
                                       preprocessScene: seq<byte> -> Img, gen: (Img, nat) -> Fake,
                                       disc: (Img, Fake) -> real) returns (r: Generated<Fake>)
    ensures numSamples == 0 <==> r.Raised?
    ensures r.Generated? ==>
              var input := preprocessScene(imageBytes);
              exists k :: 0 <= k < numSamples && r.fake == gen(input, k)
                          && (forall j :: 0 <= j < numSamples ==> disc(input, gen(input, j)) <= disc(input, gen(input, k)))
                          && (forall j :: 0 <= j < k ==> disc(input, gen(input, j)) < disc(input, gen(input, k)))
  {
    var input := Preprocess(modelType, imageBytes, preprocessScene);
    var scores := seq(numSamples, i requires 0 <= i < numSamples => disc(input, gen(input, i)));
    var best := SelectBest(scores);
    match best
    case None => r := Raised("'NoneType' object is not subscriptable");
    case Some(k) =>
      r := Generated(gen(input, k));
      assert FirstMax(scores, k);
      assert forall j :: 0 <= j < numSamples ==> scores[j] == disc(input, gen(input, j));
  }
}

=== FILE: decimal.dfy ===
/** Decimal rendering of non-negative integers, as JavaScript's `String(n)`,
    `n.toString()` and template interpolation `${n}` produce it for integers
    below 10^21 (from there on JavaScript switches to exponent form), together
    with the parser that inverts it. */
module Decimal {

  predicate IsDigit(c: char)
  {
    '0' <= c <= '9'
  }

  predicate AllDigits(s: string)
  {
    forall i :: 0 <= i < |s| ==> IsDigit(s[i])
  }

  function DigitChar(d: nat): (c: char)
    requires d < 10
    ensures IsDigit(c) && (c as int) - ('0' as int) == d
  {
    (('0' as int) + d) as char
  }

  /** The shortest decimal numeral of `n`: digits only, no leading zero. */
  function Show(n: nat): (s: string)
    ensures 1 <= |s|
    ensures AllDigits(s)
    ensures s[0] == '0' ==> n == 0
    ensures n < 10 <==> |s| == 1
    decreases n
  {
    if n < 10 then [DigitChar(n)] else Show(n / 10) + [DigitChar(n % 10)]
  }

  /** The value of a string of decimal digits. */
  function Parse(s: string): nat
    requires AllDigits(s)
    decreases |s|
  {
    if s == [] then 0
    else Parse(s[..|s| - 1]) * 10 + ((s[|s| - 1] as int) - ('0' as int))
  }

  /** Parsing inverts rendering. */
  lemma {:induction false} ParseShow(n: nat)
    ensures Parse(Show(n)) == n
    decreases n
  {
    if n >= 10 {
      var s := Show(n);
      ParseShow(n / 10);
      assert s[..|s| - 1] == Show(n / 10);
    }
  }

  /** Distinct numbers render to distinct strings. */
  lemma ShowInjective(m: nat, n: nat)
    requires Show(m) == Show(n)
    ensures m == n
  {
    ParseShow(m);
    ParseShow(n);
  }
}

=== FILE: js.dfy ===
/** The slice of JavaScript semantics the route handlers and components rely on:
    JSON-shaped values, truthiness (`!v`), property reads that throw on
    `null`/`undefined`, and thrown values (which may or may not be `Error`s). */
module Js {

  /** An octet, as held by an `ArrayBuffer` or a `Uint8Array`. */
  type byte = x: int | 0 <= x < 256

  /** A JSON-shaped JavaScript value. Numbers are integers here: no NaN, no fractions. */
  datatype Value =
    | Undefined
    | Null
    | Bool(b: bool)
    | Num(n: int)
    | Str(s: string)
    | Array(items: seq<Value>)
    | Object(fields: map<string, Value>)

  /** JavaScript truthiness: `!v` holds exactly when `Truthy(v)` does not. */
  predicate Truthy(v: Value)
  {
    match v
    case Undefined => false
    case Null => false
    case Bool(b) => b
    case Num(n) => n != 0
    case Str(s) => s != ""
    case Array(_) => true
    case Object(_) => true
  }

  /** Truthiness of an optional string (`undefined` or a string). */
  predicate Present(s: Option<string>)
  {
    s.Some? && s.value != ""
  }

  datatype Option<+T> = None | Some(value: T)

  /** A thrown value: `isError` says whether it is an `Error` instance,
      in which case `message` is its `.message`. */
  datatype Thrown = Thrown(isError: bool, message: string)

  /** The outcome of JavaScript code that either returns a value or throws. */
  datatype Result<+T> = Ok(value: T) | Err(thrown: Thrown)

  /** `new Error(message)` */
  function Error(message: string): Thrown
  {
    Thrown(true, message)
  }

  /** `error instanceof Error ? error.message : fallback` */
  function MessageOr(t: Thrown, fallback: string): (m: string)
    ensures t.isError ==> m == t.message
    ensures !t.isError ==> m == fallback
  {
    if t.isError then t.message else fallback
  }

  /** Property read `v.key` of a data key that is not a built-in property
      (such as `sketch` or `image`, the only keys read here; `length` and
      prototype members like `constructor` are not covered). Reading from `null`
      or `undefined` throws a `TypeError`; a missing key, or such a key of a
      primitive or an array, reads `undefined`. */
  function Get(v: Value, key: string): (r: Result<Value>)
    ensures r.Err? <==> v.Undefined? || v.Null?
    ensures r.Err? ==> r.thrown.isError
    ensures v.Object? && key in v.fields ==> r == Ok(v.fields[key])
    ensures v.Object? && key !in v.fields ==> r == Ok(Undefined)
    ensures !v.Object? && r.Ok? ==> r.value == Undefined
  {
    match v
    case Undefined => Err(Error("Cannot read properties of undefined (reading '" + key + "')"))
    case Null => Err(Error("Cannot read properties of null (reading '" + key + "')"))
    case Object(fields) => Ok(if key in fields then fields[key] else Undefined)
    case _ => Ok(Undefined)
  }

  /** `response.ok` of a `fetch` response: the status is in 200..299. */
  predicate IsOk(status: nat)
  {
    200 <= status <= 299
  }

  /** A JSON reply from a route handler: `NextResponse.json(body, { status })`. */
  datatype Response = Response(status: nat, body: Value)

  /** `NextResponse.json({ error: message }, { status })` */
  function ErrorResponse(status: nat, message: string): Response
  {
    Response(status, Object(map["error" := Str(message)]))
  }

  /** The string held under `key` in a reply body, if there is one. */
  function Field(r: Response, key: string): Option<Value>
  {
    if r.body.Object? && key in r.body.fields then Some(r.body.fields[key]) else None
  }
}

=== FILE: page.dfy ===
/** The top-level page (frontend/app/page.tsx): the single sketch record, the
    busy flag and the sketch type, driven by upload, clear-result and transform.
    A transform is modelled in two steps: `BeginTransform` runs up to the
    `fetch`, `CompleteTransform` runs from the response to the `finally`, so
    that other events may be interleaved between the two. `handleTransform`
    awaits three times (the `fetch`, `response.blob()` and the `FileReader`
    promise), but nothing after the first await writes state until the final
    `setSketch`, and that call stores a value rather than an updater, so
    events interleaved at the later awaits have the same effect as events
    interleaved at the first. */
module Page {
  import opened Js
  import opened Text
  import Decimal
  import TransformedImage

  datatype SketchType = ObjectType | SceneType

  /** The `model_type` query value of a sketch type. */
  function TypeName(t: SketchType): string
  {
    match t
    case ObjectType => "object"
    case SceneType => "scene"
  }

  /** `SketchItem`: `timestamp` is the epoch time in ms of `new Date()`. */
  datatype SketchItem = SketchItem(id: string, imageData: string, timestamp: int, transformedImage: Option<string>)

  /** The page's state: `sketch`, `isTransforming` and `sketchType`. */
  datatype State = State(sketch: Option<SketchItem>, isTransforming: bool, sketchType: SketchType)

  const Initial := State(None, false, ObjectType)

  /** `handleUpload`'s `onload`: `result` is the data URL `FileReader` produced,
      or `None` when the read failed and `onload` never runs. `now` is
      `Date.now()` (the id) and `at` is `new Date()` (the timestamp). */
  function UploadLoaded(s: State, result: Option<string>, now: nat, at: int): (s': State)
    ensures result.None? ==> s' == s
    ensures result.Some? ==> s' == s.(sketch := Some(SketchItem(Decimal.Show(now), result.value, at, None)))
  {
    match result
    case None => s
    case Some(url) => s.(sketch := Some(SketchItem(Decimal.Show(now), url, at, None)))
  }

  /** Uploads loaded at different clock readings get different sketch ids. */
  lemma DistinctClocksDistinctIds(s: State, url1: string, url2: string, now1: nat, now2: nat, at1: int, at2: int)
    requires now1 != now2
    ensures UploadLoaded(s, Some(url1), now1, at1).sketch.value.id != UploadLoaded(s, Some(url2), now2, at2).sketch.value.id
  {
    if Decimal.Show(now1) == Decimal.Show(now2) {
      Decimal.ShowInjective(now1, now2);
    }
  }

  /** `handleClearResult` */
  function ClearResult(s: State): (s': State)
    ensures s.sketch.None? ==> s' == s
    ensures s.sketch.Some? ==>
              && s'.sketch.Some?
              && s'.sketch.value.transformedImage == None
              && s'.sketch.value.id == s.sketch.value.id
              && s'.sketch.value.imageData == s.sketch.value.imageData
              && s'.sketch.value.timestamp == s.sketch.value.timestamp
    ensures s'.isTransforming == s.isTransforming && s'.sketchType == s.sketchType
  {
    match s.sketch
    case None => s
    case Some(item) => s.(sketch := Some(item.(transformedImage := None)))
  }

  /** `handleSketchTypeChange` */
  function ChangeSketchType(s: State, t: SketchType): (s': State)
    ensures s'.sketchType == t && s'.sketch == s.sketch && s'.isTransforming == s.isTransforming
  {
    s.(sketchType := t)
  }

  /** `imageData.split(",")[1]`, as `atob` receives it: when there is no comma
      the index reads `undefined`, which `atob` converts to the text "undefined". */
  function Base64Part(imageData: string): (part: string)
    ensures ',' !in imageData ==> part == "undefined"
    ensures ',' in imageData ==>
              var parts := Split(imageData, ',');
              |parts| >= 2 && part == parts[1]
  {
    var parts := Split(imageData, ',');
    if |parts| >= 2 then parts[1] else "undefined"
  }

  /** For `<header>,<payload>` with no comma in either part (a data URL whose
      payload is base64 text is one), the extracted part is the payload. */
  lemma Base64PartOfDataUrl(header: string, payload: string)
    requires ',' !in header && ',' !in payload
    ensures Base64Part(header + "," + payload) == payload
  {
    SplitJoin([header, payload], ',');
    assert Join([header, payload], ',') == header + "," + payload;
  }

  /** A `data:<type>;base64,<base64 text>` URL yields exactly its base64 text. */
  lemma Base64PartOfBase64DataUrl(mimeType: string, payload: string)
    requires ',' !in mimeType && IsBase64Text(payload)
    ensures Base64Part("data:" + mimeType + ";base64," + payload) == payload
  {
    Base64HasNoComma(payload);
    var header := "data:" + mimeType + ";base64";
    assert forall k :: 0 <= k < |mimeType| ==> header[5 + k] == mimeType[k];
    assert ',' !in header;
    Base64PartOfDataUrl(header, payload);
    assert header + "," + payload == "data:" + mimeType + ";base64," + payload;
  }

  /** The char codes of a string, in order. */
  function CharCodes(chars: string): (codes: seq<int>)
    ensures |codes| == |chars|
  {
    seq(|chars|, i requires 0 <= i < |chars| => chars[i] as int)
  }

  /** The byte loop: one entry per character, each that character's code. */
  method CollectCharCodes(byteCharacters: string) returns (byteArrays: seq<int>)
    ensures |byteArrays| == |byteCharacters|
    ensures forall i :: 0 <= i < |byteCharacters| ==> byteArrays[i] == byteCharacters[i] as int
    ensures byteArrays == CharCodes(byteCharacters)
  {
    byteArrays := [];
    var i := 0;
    while i < |byteCharacters|
      invariant 0 <= i <= |byteCharacters|
      invariant |byteArrays| == i
      invariant forall j :: 0 <= j < i ==> byteArrays[j] == byteCharacters[j] as int
    {
      byteArrays := byteArrays + [byteCharacters[i] as int];
      i := i + 1;
    }
  }

  /** `new Uint8Array(numbers)`: each number is reduced modulo 256. */
  function ToUint8Array(numbers: seq<int>): (bytes: seq<byte>)
    ensures |bytes| == |numbers|
    ensures forall i :: 0 <= i < |numbers| && 0 <= numbers[i] < 256 ==> bytes[i] == numbers[i]
  {
    seq(|numbers|, i requires 0 <= i < |numbers| => numbers[i] % 256)
  }

  /** A binary string, as `atob` returns: every char code below 256. */
  predicate IsBinaryString(s: string)
  {
    forall i :: 0 <= i < |s| ==> (s[i] as int) < 256
  }

  /** For a binary string the bytes sent are exactly its char codes, and
      turning them back into chars gives the string back. */
  lemma BinaryStringBytes(chars: string)
    requires IsBinaryString(chars)
    ensures var bytes := ToUint8Array(CharCodes(chars));
            |bytes| == |chars| && forall i :: 0 <= i < |chars| ==> bytes[i] as char == chars[i]
  {
  }

  /** The multipart `fetch` to the backend: `file` = `bytes` as `sketch.png`
      of type `image/png`. */
  datatype GenerateRequest = GenerateRequest(url: string, fieldName: string, fileName: string,
                                             blobType: string, bytes: seq<byte>)

  /** How the `fetch` ends: a response with a status and its body, or a throw. */
  datatype FetchOutcome = Responded(status: nat, body: seq<byte>) | FetchFailed(thrown: Thrown)

  const BackendGenerateUrl := "http://localhost:8000/generate?model_type="

  /** A transform that reached its `fetch`: the sketch it will store and the
      request it sent. */
  datatype Pending = Pending(newSketch: SketchItem, request: GenerateRequest)

  /** What the synchronous part of `handleTransform` does. */
  datatype Begun =
    | Started(state: State, pending: Pending)
    | Rejected(state: State, thrown: Thrown)

  const SketchNotFoundMessage := "Sketch not found"

  /** `handleTransform(imageData)` up to its `fetch`. `atob` stands for the
      browser's base64 decoder; `now`/`at` are `Date.now()` and `new Date()`. */
  function BeginTransform(s: State, imageData: string, now: nat, at: int,
                          atob: string -> Result<string>): (b: Begun)
    // an empty sketch is refused before anything else happens
    ensures imageData == "" ==> b == Rejected(s, Error(SketchNotFoundMessage))
    // a decoder failure is caught by `finally`, which leaves the page idle
    ensures imageData != "" && atob(Base64Part(imageData)).Err? ==>
              b == Rejected(s.(isTransforming := false), atob(Base64Part(imageData)).thrown)
    ensures imageData != "" && atob(Base64Part(imageData)).Ok? ==>
              && b.Started?
              && b.state == s.(isTransforming := true)
              && b.pending.newSketch == SketchItem(Decimal.Show(now), imageData, at, None)
              && b.pending.request.url == BackendGenerateUrl + TypeName(s.sketchType)
              && b.pending.request.fieldName == "file"
              && b.pending.request.fileName == "sketch.png"
              && b.pending.request.blobType == "image/png"
              && b.pending.request.bytes == ToUint8Array(CharCodes(atob(Base64Part(imageData)).value))
    ensures b.state.sketch == s.sketch && b.state.sketchType == s.sketchType
  {
    if imageData == "" then Rejected(s, Error(SketchNotFoundMessage))
    else
      var newSketch := SketchItem(Decimal.Show(now), imageData, at, None);
      match atob(Base64Part(imageData))
      case Err(t) => Rejected(s.(isTransforming := false), t)
      case Ok(byteCharacters) =>
        var bytes := ToUint8Array(CharCodes(byteCharacters));
        var request := GenerateRequest(BackendGenerateUrl + TypeName(s.sketchType), "file", "sketch.png",
                                       "image/png", bytes);
        Started(s.(isTransforming := true), Pending(newSketch, request))
  }

  /** The message thrown for a non-ok response. */
  function HttpMessage(status: nat): string
  {
    "HTTP " + Decimal.Show(status)
  }

  /** The rest of `handleTransform`, applied to the page state `s` current
      when the `fetch` settles. `readAsDataUrl` stands for `FileReader`'s
      conversion of the response body. */
  function CompleteTransform(s: State, p: Pending, outcome: FetchOutcome,
                             readAsDataUrl: seq<byte> -> Result<string>): (r: (State, Result<string>))
    // `finally`: the page is idle afterwards on every outcome
    ensures !r.0.isTransforming
    ensures r.0.sketchType == s.sketchType
    // a failure changes nothing but the busy flag
    ensures r.1.Err? ==> r.0 == s.(isTransforming := false)
    ensures outcome.FetchFailed? ==> r.1 == Err(outcome.thrown)
    ensures outcome.Responded? && !IsOk(outcome.status) ==> r.1 == Err(Error(HttpMessage(outcome.status)))
    // success replaces the sketch: the submitted image and its one result
    ensures r.1.Ok? <==> outcome.Responded? && IsOk(outcome.status) && readAsDataUrl(outcome.body).Ok?
    ensures r.1.Ok? ==>
              && r.1.value == readAsDataUrl(outcome.body).value
              && r.0.sketch == Some(p.newSketch.(transformedImage := Some(r.1.value)))
  {
    match outcome
    case FetchFailed(t) => (s.(isTransforming := false), Err(t))
    case Responded(status, body) =>
      if !IsOk(status) then (s.(isTransforming := false), Err(Error(HttpMessage(status))))
      else
        match readAsDataUrl(body)
        case Err(t) => (s.(isTransforming := false), Err(t))
        case Ok(url) => (s.(sketch := Some(p.newSketch.(transformedImage := Some(url))), isTransforming := false), Ok(url))
  }

  /** A transform with no other event in between: success stores the input
      with its result; failure restores the page's sketch and leaves it idle. */
  lemma UninterruptedTransform(s: State, imageData: string, now: nat, at: int,
                               atob: string -> Result<string>, outcome: FetchOutcome,
                               readAsDataUrl: seq<byte> -> Result<string>)
    requires BeginTransform(s, imageData, now, at, atob).Started?
    ensures var b := BeginTransform(s, imageData, now, at, atob);
            var r := CompleteTransform(b.state, b.pending, outcome, readAsDataUrl);
            && b.state.isTransforming
            && !r.0.isTransforming
            && (r.1.Err? ==> r.0 == s.(isTransforming := false))
            && (r.1.Ok? ==> r.0.sketch == Some(SketchItem(Decimal.Show(now), imageData, at, Some(r.1.value))))
  {
  }

  /** Two overlapping transforms, the second begun while the first is in
      flight (nothing guards against it): when the first settles the page
      reports idle although the second is still in flight, and whichever
      succeeds last decides the stored sketch. */
  lemma OverlapClearsBusyEarly(s: State, atob: string -> Result<string>,
                               image1: string, now1: nat, at1: int, outcome1: FetchOutcome,
                               image2: string, now2: nat, at2: int, outcome2: FetchOutcome,
                               readAsDataUrl: seq<byte> -> Result<string>)
    requires BeginTransform(s, image1, now1, at1, atob).Started?
    requires BeginTransform(BeginTransform(s, image1, now1, at1, atob).state, image2, now2, at2, atob).Started?
    ensures var b1 := BeginTransform(s, image1, now1, at1, atob);
            var b2 := BeginTransform(b1.state, image2, now2, at2, atob);
            var c1 := CompleteTransform(b2.state, b1.pending, outcome1, readAsDataUrl);
            var c2 := CompleteTransform(c1.0, b2.pending, outcome2, readAsDataUrl);
            && b2.state.isTransforming
            && !c1.0.isTransforming
            && (c2.1.Ok? ==> c2.0.sketch == Some(SketchItem(Decimal.Show(now2), image2, at2, Some(c2.1.value))))
            && (c1.1.Ok? && c2.1.Err? ==> c2.0.sketch == Some(SketchItem(Decimal.Show(now1), image1, at1, Some(c1.1.value))))
  {
  }

  /** When the later transform settles first, the earlier one, settling
      afterwards, overwrites the newer sketch with the older one and its result. */
  lemma StaleTransformOverwrites(s: State, atob: string -> Result<string>,
                                 image1: string, now1: nat, at1: int, outcome1: FetchOutcome,
                                 image2: string, now2: nat, at2: int, outcome2: FetchOutcome,
                                 readAsDataUrl: seq<byte> -> Result<string>)
    requires BeginTransform(s, image1, now1, at1, atob).Started?
    requires BeginTransform(BeginTransform(s, image1, now1, at1, atob).state, image2, now2, at2, atob).Started?
    ensures var b1 := BeginTransform(s, image1, now1, at1, atob);
            var b2 := BeginTransform(b1.state, image2, now2, at2, atob);
            var c2 := CompleteTransform(b2.state, b2.pending, outcome2, readAsDataUrl);
            var c1 := CompleteTransform(c2.0, b1.pending, outcome1, readAsDataUrl);
            && (c2.1.Ok? ==> c2.0.sketch == Some(SketchItem(Decimal.Show(now2), image2, at2, Some(c2.1.value))))
            && (c1.1.Ok? ==> c1.0.sketch == Some(SketchItem(Decimal.Show(now1), image1, at1, Some(c1.1.value))))
            && !c1.0.isTransforming
  {
  }

  /** The props the page hands to the result viewer. */
  function ViewerProps(s: State): (p: TransformedImage.Props)
    ensures p.isTransforming == s.isTransforming
    ensures p.hasOnClear && !p.hasOnDownload
    ensures p.imageUrl == if s.sketch.Some? then s.sketch.value.transformedImage else None
  {
    TransformedImage.Props(if s.sketch.Some? then s.sketch.value.transformedImage else None,
                           s.isTransforming, true, false)
  }

  /** The viewer's Clear Result reaches `handleClearResult` exactly when the
      page holds a sketch with a result, whether or not a transform is running. */
  lemma ViewerClearEnabled(s: State)
    ensures TransformedImage.ClickClear(ViewerProps(s)) <==> s.sketch.Some? && Present(s.sketch.value.transformedImage)
    ensures s.isTransforming && TransformedImage.ClickClear(ViewerProps(s)) ==>
              TransformedImage.DisplayOf(ViewerProps(s)) == TransformedImage.Spinner
  {
  }

  /** The viewer's Clear Result, wired to `handleClearResult`, returns the
      viewer to its placeholder (when no transform is running) and keeps the sketch. */
  lemma ClearReturnsViewerToPlaceholder(s: State)
    requires !s.isTransforming
    ensures TransformedImage.DisplayOf(ViewerProps(ClearResult(s))) == TransformedImage.Placeholder
  {
  }

  /** The scenario of a transform against a backend that echoes the image:
      busy while in flight, then the result is shown, then Clear Result
      brings back the placeholder. */
  lemma EchoScenario(s: State, imageData: string, now: nat, at: int, atob: string -> Result<string>,
                     readAsDataUrl: seq<byte> -> Result<string>, echoed: string)
    requires BeginTransform(s, imageData, now, at, atob).Started?
    requires echoed != ""
    requires readAsDataUrl(BeginTransform(s, imageData, now, at, atob).pending.request.bytes) == Ok(echoed)
    ensures var b := BeginTransform(s, imageData, now, at, atob);
            var done := CompleteTransform(b.state, b.pending, Responded(200, b.pending.request.bytes), readAsDataUrl).0;
            && TransformedImage.DisplayOf(ViewerProps(b.state)) == TransformedImage.Spinner
            && TransformedImage.DisplayOf(ViewerProps(done)) == TransformedImage.Picture(echoed)
            && TransformedImage.DisplayOf(ViewerProps(ClearResult(done))) == TransformedImage.Placeholder
  {
  }
}

=== FILE: sidebar.dfy ===
/** The history sidebar (frontend/components/sidebar.tsx): the client-side
    upload size gate, the per-sketch error map, the id of the sketch being
    transformed, and what each history entry shows. */
module Sidebar {
  import opened Js
  import Decimal
  import Page

  /** The largest file the picker passes on, in bytes: 10 MiB. */
  const MaxFileSize: nat := 10 * 1024 * 1024

  /** The error-map key of upload errors. */
  const UploadKey := "upload"

  const TooLargeMessage := "File size exceeds 10MB limit"
  const DefaultTransformMessage := "Failed to transform sketch"

  /** A file chosen in the picker. */
  datatype ChosenFile = ChosenFile(name: string, size: nat)

  /** The sidebar's state: `transforming` (an id or `null`) and `errors`. */
  datatype State = State(transforming: Option<string>, errors: map<string, string>)

  const Initial := State(None, map[])

  /** `{ ...errors, [key]: message }`: only `key` changes. */
  function SetError(errors: map<string, string>, key: string, message: string): (e: map<string, string>)
    ensures e.Keys == errors.Keys + {key}
    ensures e[key] == message
    ensures forall k :: k in errors && k != key ==> e[k] == errors[k]
  {
    errors[key := message]
  }

  /** `errors[key]` is rendered when it is present and non-empty. */
  predicate ShowsError(s: State, key: string)
  {
    key in s.errors && s.errors[key] != ""
  }

  /** What `handleFileSelect` does: the new state, and the file handed to `onUpload`, if any. */
  datatype Selected = Selected(state: State, uploaded: Option<ChosenFile>)

  /** `handleFileSelect` for the picker's file list. */
  function FileSelect(s: State, files: seq<ChosenFile>): (r: Selected)
    ensures files == [] ==> r == Selected(s, None)
    ensures files != [] && files[0].size > MaxFileSize ==>
              r == Selected(s.(errors := SetError(s.errors, UploadKey, TooLargeMessage)), None)
    ensures files != [] && files[0].size <= MaxFileSize ==>
              r == Selected(s.(errors := SetError(s.errors, UploadKey, "")), Some(files[0]))
    ensures r.state.transforming == s.transforming
    // the upload error is on screen exactly after a refused file
    ensures files != [] ==> (ShowsError(r.state, UploadKey) <==> r.uploaded.None?)
    ensures forall k :: k != UploadKey ==> (ShowsError(r.state, k) <==> ShowsError(s, k))
  {
    if files == [] then Selected(s, None)
    else if files[0].size > MaxFileSize then
      Selected(s.(errors := SetError(s.errors, UploadKey, TooLargeMessage)), None)
    else
      Selected(s.(errors := SetError(s.errors, UploadKey, "")), Some(files[0]))
  }

  /** `handleTransformClick(id)` up to its `await`. */
  function StartTransform(s: State, id: string): (s': State)
    ensures s'.transforming == Some(id)
    ensures s'.errors == SetError(s.errors, id, "")
  {
    State(Some(id), SetError(s.errors, id, ""))
  }

  /** `handleTransformClick(id)` after its `await`: `failure` is what
      `onTransform` threw, if anything. */
  function FinishTransform(s: State, id: string, failure: Option<Thrown>): (s': State)
    ensures s'.transforming == None
    ensures failure.None? ==> s'.errors == s.errors
    ensures failure.Some? ==> s'.errors == SetError(s.errors, id, MessageOr(failure.value, DefaultTransformMessage))
    ensures failure.Some? && !failure.value.isError ==> ShowsError(s', id)
  {
    match failure
    case None => State(None, s.errors)
    case Some(t) => State(None, SetError(s.errors, id, MessageOr(t, DefaultTransformMessage)))
  }

  /** A whole transform click with nothing in between: only the clicked
      id's error can change, it ends empty on success and holds the message
      on failure, and `transforming` is back to `null`. */
  lemma TransformClickEffect(s: State, id: string, failure: Option<Thrown>)
    ensures var s' := FinishTransform(StartTransform(s, id), id, failure);
            && s'.transforming == None
            && s'.errors.Keys == s.errors.Keys + {id}
            && (forall k :: k in s.errors && k != id ==> s'.errors[k] == s.errors[k])
            && (failure.None? ==> s'.errors[id] == "")
            && (failure.Some? && failure.value.isError ==> s'.errors[id] == failure.value.message)
            && (failure.Some? && !failure.value.isError ==> s'.errors[id] == DefaultTransformMessage)
  {
  }

  /** The Transform button is rendered under `{!sketch.transformedImage && ...}`. */
  predicate ShowsTransformButton(item: Page.SketchItem)
  {
    !Present(item.transformedImage)
  }

  /** The "✓ Transformed" badge is rendered under `{sketch.transformedImage && ...}`. */
  predicate ShowsTransformedBadge(item: Page.SketchItem)
  {
    Present(item.transformedImage)
  }

  /** `disabled={transforming === sketch.id}` */
  predicate TransformButtonDisabled(s: State, item: Page.SketchItem)
  {
    s.transforming == Some(item.id)
  }

  /** The entry's action area: exactly one of the Transform button and the
      badge, and the button is disabled exactly while its own id is transforming. */
  lemma ButtonOrBadge(s: State, item: Page.SketchItem)
    ensures ShowsTransformButton(item) != ShowsTransformedBadge(item)
    ensures ShowsTransformButton(item) <==> item.transformedImage.None? || item.transformedImage == Some("")
    ensures TransformButtonDisabled(StartTransform(s, item.id), item)
    ensures !TransformButtonDisabled(FinishTransform(s, item.id, None), item)
  {
  }

  /** `src={sketch.transformedImage || sketch.imageData}` */
  function PreviewSource(item: Page.SketchItem): (src: string)
    ensures Present(item.transformedImage) ==> src == item.transformedImage.value
    ensures !Present(item.transformedImage) ==> src == item.imageData
  {
    if item.transformedImage.Some? && item.transformedImage.value != "" then item.transformedImage.value
    else item.imageData
  }

  /** Sketch ids are `Date.now()` numerals, so a sketch's error never
      overwrites or hides the upload error. */
  lemma SketchIdNeverUploadKey(now: nat)
    ensures Decimal.Show(now) != UploadKey
  {
    assert Decimal.IsDigit(Decimal.Show(now)[0]);
  }

  /** Starting or finishing a transform of a sketch with a `Date.now()` id
      leaves the upload error as it was. */
  lemma TransformKeepsUploadError(s: State, now: nat, failure: Option<Thrown>)
    ensures var id := Decimal.Show(now);
            var s' := FinishTransform(StartTransform(s, id), id, failure);
            (UploadKey in s.errors <==> UploadKey in s'.errors)
            && (UploadKey in s.errors ==> s'.errors[UploadKey] == s.errors[UploadKey])
            && (ShowsError(s', UploadKey) <==> ShowsError(s, UploadKey))
  {
    SketchIdNeverUploadKey(now);
  }
}

=== FILE: sketch_canvas.dfy ===
/** The drawing canvas (frontend/components/sketch-canvas.tsx): tool, line
    width and drawing flag, and the effect of each mouse and toolbar event on
    the canvas surface, a grid of pixels indexed by integer coordinates.
    Pen rasterisation is a parameter: `raster(path, lineWidth)` is the set of
    cells a stroke of `path` at that width covers. */
module SketchCanvas {
  import opened Js

  datatype Tool = Pen | Eraser

  /** A pixel's colour: opaque white, opaque black (`#000000`), or cleared. */
  datatype Pixel = White | Black | Transparent

  /** A canvas coordinate in pixel units: column, row. */
  type Point = (int, int)

  /** All cells of a `width` × `height` canvas. */
  function Cells(width: nat, height: nat): set<Point>
  {
    set x: int, y: int | 0 <= x < width && 0 <= y < height :: (x, y)
  }

  /** The canvas bitmap: a colour for every cell. */
  datatype Surface = Surface(width: nat, height: nat, pixels: map<Point, Pixel>)

  predicate ValidSurface(surf: Surface)
  {
    surf.pixels.Keys == Cells(surf.width, surf.height)
  }

  /** The component's state. `surface` is `None` while `canvasRef.current` is
      `null`; `path` is the current canvas path (`beginPath`/`lineTo`). */
  datatype State = State(tool: Tool, lineWidth: int, isDrawing: bool, path: seq<Point>, surface: Option<Surface>)

  /** Every cell of the surface painted `colour` (`fillRect` over the canvas). */
  function Fill(surf: Surface, colour: Pixel): (r: Surface)
    ensures r.width == surf.width && r.height == surf.height
    ensures r.pixels.Keys == surf.pixels.Keys
    ensures forall c :: c in r.pixels ==> r.pixels[c] == colour
  {
    Surface(surf.width, surf.height, map c | c in surf.pixels :: colour)
  }

  /** The mount effect: size the canvas to its layout box and paint it white. */
  function Mount(offsetWidth: nat, offsetHeight: nat): (surf: Surface)
    ensures ValidSurface(surf)
    ensures surf.width == offsetWidth && surf.height == offsetHeight
    ensures forall c :: c in surf.pixels ==> surf.pixels[c] == White
  {
    Surface(offsetWidth, offsetHeight, map c | c in Cells(offsetWidth, offsetHeight) :: White)
  }

  /** The state after mounting: `layout` is the canvas's layout box, `None`
      when the canvas element is absent. */
  function Initial(layout: Option<(nat, nat)>): (s: State)
    ensures s.tool == Pen && s.lineWidth == 3 && !s.isDrawing
    ensures layout.Some? ==> s.surface == Some(Mount(layout.value.0, layout.value.1))
    ensures layout.None? ==> s.surface == None
  {
    State(Pen, 3, false, [], if layout.Some? then Some(Mount(layout.value.0, layout.value.1)) else None)
  }

  /** `clearCanvas` */
  function ClearCanvas(s: State): (s': State)
    ensures s'.surface.Some? <==> s.surface.Some?
    ensures s.surface.Some? ==> s'.surface == Some(Fill(s.surface.value, White))
    ensures s'.tool == s.tool && s'.lineWidth == s.lineWidth && s'.isDrawing == s.isDrawing
    ensures s'.path == s.path
  {
    match s.surface
    case None => s
    case Some(surf) => s.(surface := Some(Fill(surf, White)))
  }

  /** `startDrawing` (mousedown) at `p`. */
  function StartDrawing(s: State, p: Point): (s': State)
    ensures s.surface.Some? ==> s'.isDrawing && s'.path == [p]
    ensures s.surface.None? ==> s' == s
    ensures s'.surface == s.surface && s'.tool == s.tool && s'.lineWidth == s.lineWidth
  {
    if s.surface.None? then s else s.(isDrawing := true, path := [p])
  }

  /** `stopDrawing` (mouseup and mouseleave). */
  function StopDrawing(s: State): (s': State)
    ensures !s'.isDrawing
    ensures s'.surface == s.surface && s'.tool == s.tool && s'.lineWidth == s.lineWidth
  {
    s.(isDrawing := false)
  }

  /** The side of the square `clearRect(x - w/2, y - w/2, w, w)` clears; a
      negative width spans the same square the other way. */
  function EraserSide(lineWidth: int): nat
  {
    if lineWidth < 0 then -lineWidth else lineWidth
  }

  /** Whether the eraser square of `lineWidth` at `p` covers the centre of cell `c`. */
  predicate InEraserSquare(c: Point, p: Point, lineWidth: int)
  {
    var side := EraserSide(lineWidth);
    && 2 * p.0 - side <= 2 * c.0 + 1 < 2 * p.0 + side
    && 2 * p.1 - side <= 2 * c.1 + 1 < 2 * p.1 + side
  }

  /** Clear to transparent the cells of the eraser square at `p`. */
  function Erase(surf: Surface, p: Point, lineWidth: int): (r: Surface)
    ensures r.width == surf.width && r.height == surf.height && r.pixels.Keys == surf.pixels.Keys
    ensures forall c :: c in r.pixels && InEraserSquare(c, p, lineWidth) ==> r.pixels[c] == Transparent
    ensures forall c :: c in r.pixels && !InEraserSquare(c, p, lineWidth) ==> r.pixels[c] == surf.pixels[c]
  {
    Surface(surf.width, surf.height,
            map c | c in surf.pixels :: if InEraserSquare(c, p, lineWidth) then Transparent else surf.pixels[c])
  }

  /** Paint black the cells a stroke covers. */
  function Stroke(surf: Surface, covered: set<Point>): (r: Surface)
    ensures r.width == surf.width && r.height == surf.height && r.pixels.Keys == surf.pixels.Keys
    ensures forall c :: c in r.pixels && c in covered ==> r.pixels[c] == Black
    ensures forall c :: c in r.pixels && c !in covered ==> r.pixels[c] == surf.pixels[c]
  {
    Surface(surf.width, surf.height, map c | c in surf.pixels :: if c in covered then Black else surf.pixels[c])
  }

  /** `draw` (mousemove) at `p`: a no-op unless a stroke was started. The pen
      extends the path and strokes all of it in black; the eraser clears its square. */
  function Draw(s: State, p: Point, raster: (seq<Point>, int) -> set<Point>): (s': State)
    ensures !s.isDrawing || s.surface.None? ==> s' == s
    ensures s.isDrawing && s.surface.Some? && s.tool == Pen ==>
              s' == s.(path := s.path + [p], surface := Some(Stroke(s.surface.value, raster(s.path + [p], s.lineWidth))))
    ensures s.isDrawing && s.surface.Some? && s.tool == Eraser ==>
              s' == s.(surface := Some(Erase(s.surface.value, p, s.lineWidth)))
    ensures s'.tool == s.tool && s'.lineWidth == s.lineWidth && s'.isDrawing == s.isDrawing
  {
    if !s.isDrawing then s
    else
      match s.surface
      case None => s
      case Some(surf) =>
        match s.tool
        case Pen =>
          var path := s.path + [p];
          s.(path := path, surface := Some(Stroke(surf, raster(path, s.lineWidth))))
        case Eraser => s.(surface := Some(Erase(surf, p, s.lineWidth)))
  }

  /** `setLineWidth`: stores the number as given, without clamping. */
  function SetLineWidth(s: State, width: int): (s': State)
    ensures s'.lineWidth == width
    ensures s'.tool == s.tool && s'.surface == s.surface && s'.isDrawing == s.isDrawing
  {
    s.(lineWidth := width)
  }

  /** The value a `<input type="range" min="1" max="20">` reports for a
      requested position `raw`: the browser keeps it within min..max. */
  function SliderValue(raw: int): (v: int)
    ensures 1 <= v <= 20
    ensures 1 <= raw <= 20 ==> v == raw
  {
    if raw < 1 then 1 else if raw > 20 then 20 else raw
  }

  /** The canvas's event sources. */
  datatype Event =
    | MouseDown(p: Point)
    | MouseMove(p: Point)
    | MouseUp
    | MouseLeave
    | SelectPen
    | SelectEraser
    | Slide(raw: int)
    | ClearClicked

  /** The state after one event. */
  function Step(s: State, e: Event, raster: (seq<Point>, int) -> set<Point>): (s': State)
    ensures e.MouseDown? && s.surface.Some? ==> s'.isDrawing
    ensures e.MouseUp? || e.MouseLeave? ==> !s'.isDrawing
    ensures e.SelectPen? ==> s'.tool == Pen
    ensures e.SelectEraser? ==> s'.tool == Eraser
    ensures e.Slide? ==> s'.lineWidth == SliderValue(e.raw)
  {
    match e
    case MouseDown(p) => StartDrawing(s, p)
    case MouseMove(p) => Draw(s, p, raster)
    case MouseUp => StopDrawing(s)
    case MouseLeave => StopDrawing(s)
    case SelectPen => s.(tool := Pen)
    case SelectEraser => s.(tool := Eraser)
    case Slide(raw) => SetLineWidth(s, SliderValue(raw))
    case ClearClicked => ClearCanvas(s)
  }

  /** The state after a sequence of events. */
  function Run(s: State, events: seq<Event>, raster: (seq<Point>, int) -> set<Point>): State
    decreases |events|
  {
    if events == [] then s else Run(Step(s, events[0], raster), events[1..], raster)
  }

  /** `saveSketch`: the data URL passed to `onSave`, if any. `toDataUrl`
      stands for `canvas.toDataURL("image/png")`. */
  function SaveSketch(s: State, toDataUrl: Surface -> string): (saved: Option<string>)
    ensures s.surface.None? ==> saved.None?
    ensures s.surface.Some? ==> saved == Some(toDataUrl(s.surface.value))
  {
    match s.surface
    case None => None
    case Some(surf) => Some(toDataUrl(surf))
  }

  /** Events never resize the canvas, nor create or remove it. */
  lemma {:induction false} RunKeepsSize(s: State, events: seq<Event>, raster: (seq<Point>, int) -> set<Point>)
    requires s.surface.Some?
    ensures var s' := Run(s, events, raster);
            && s'.surface.Some?
            && s'.surface.value.width == s.surface.value.width
            && s'.surface.value.height == s.surface.value.height
            && s'.surface.value.pixels.Keys == s.surface.value.pixels.Keys
    decreases |events|
  {
    if events != [] {
      RunKeepsSize(Step(s, events[0], raster), events[1..], raster);
    }
  }

  /** Clearing after any drawing history gives the freshly mounted surface,
      so a save right after a clear matches a save of a blank canvas. */
  lemma ClearForgetsHistory(w: nat, h: nat, events: seq<Event>, raster: (seq<Point>, int) -> set<Point>,
                            toDataUrl: Surface -> string)
    ensures var s := Run(Initial(Some((w, h))), events, raster);
            && ClearCanvas(s).surface == Some(Mount(w, h))
            && SaveSketch(ClearCanvas(s), toDataUrl) == SaveSketch(Initial(Some((w, h))), toDataUrl)
  {
    RunKeepsSize(Initial(Some((w, h))), events, raster);
  }

  /** Clearing twice is clearing once. */
  lemma ClearIdempotent(s: State)
    ensures ClearCanvas(ClearCanvas(s)) == ClearCanvas(s)
  {
  }

  /** Through the toolbar the width only ever takes slider values: from the
      initial width 3 it stays within 1..20 whatever events arrive. */
  lemma {:induction false} WidthStaysInSliderRange(s: State, events: seq<Event>, raster: (seq<Point>, int) -> set<Point>)
    requires 1 <= s.lineWidth <= 20
    ensures 1 <= Run(s, events, raster).lineWidth <= 20
    decreases |events|
  {
    if events != [] {
      WidthStaysInSliderRange(Step(s, events[0], raster), events[1..], raster);
    }
  }

  /** The eraser square is `|lineWidth|` cells a side: along each axis it
      covers exactly the cells from `p - (side + 1) / 2` for `side` cells. */
  lemma EraserSquareSpan(c: Point, p: Point, lineWidth: int)
    ensures var side := EraserSide(lineWidth);
            var x0 := p.0 - (side + 1) / 2;
            var y0 := p.1 - (side + 1) / 2;
            InEraserSquare(c, p, lineWidth) <==> x0 <= c.0 < x0 + side && y0 <= c.1 < y0 + side
  {
  }

  /** A pen stroke only ever turns pixels black; an eraser stroke only ever
      makes them transparent, never white. */
  lemma DrawColours(s: State, p: Point, raster: (seq<Point>, int) -> set<Point>, c: Point)
    requires s.isDrawing && s.surface.Some? && c in s.surface.value.pixels
    ensures var s' := Draw(s, p, raster);
            var before := s.surface.value.pixels[c];
            var after := s'.surface.value.pixels[c];
            after != before ==> (s.tool == Pen ==> after == Black) && (s.tool == Eraser ==> after == Transparent)
  {
  }
}

=== FILE: text.dfy ===
/** String operations of JavaScript used by the front end: `startsWith`,
    `split` on a one-character separator and its inverse `join`, and the
    base64 alphabet of section 4 of RFC 4648. */
module Text {

  /** `s.startsWith(prefix)` */
  predicate StartsWith(s: string, prefix: string)
  {
    |prefix| <= |s| && s[..|prefix|] == prefix
  }

  /** The index of the first occurrence of `c` in `s`. */
  function IndexOf(s: string, c: char): (i: nat)
    requires c in s
    ensures i < |s| && s[i] == c
    ensures c !in s[..i]
  {
    if s[0] == c then 0 else 1 + IndexOf(s[1..], c)
  }

  /** `s.split(sep)` for a one-character separator: the maximal separator-free
      pieces between occurrences of `sep`, always at least one. */
  function Split(s: string, sep: char): (parts: seq<string>)
    ensures 1 <= |parts|
    ensures forall k :: 0 <= k < |parts| ==> sep !in parts[k]
    decreases |s|
  {
    if sep in s then
      var i := IndexOf(s, sep);
      [s[..i]] + Split(s[i + 1..], sep)
    else
      [s]
  }

  /** `parts.join(sep)` */
  function Join(parts: seq<string>, sep: char): string
    requires 1 <= |parts|
    decreases |parts|
  {
    if |parts| == 1 then parts[0] else parts[0] + [sep] + Join(parts[1..], sep)
  }

  /** Joining the pieces of a split gives the string back. */
  lemma {:induction false} JoinSplit(s: string, sep: char)
    ensures Join(Split(s, sep), sep) == s
    decreases |s|
  {
    if sep in s {
      var i := IndexOf(s, sep);
      JoinSplit(s[i + 1..], sep);
      assert s == s[..i] + [sep] + s[i + 1..];
    }
  }

  /** The first occurrence is where `c` occurs with no earlier occurrence. */
  lemma IndexOfAt(s: string, c: char, i: nat)
    requires i < |s| && s[i] == c && c !in s[..i]
    ensures IndexOf(s, c) == i
  {
  }

  /** Splitting a join of separator-free pieces gives the pieces back. */
  lemma {:induction false} SplitJoin(parts: seq<string>, sep: char)
    requires 1 <= |parts|
    requires forall k :: 0 <= k < |parts| ==> sep !in parts[k]
    ensures Split(Join(parts, sep), sep) == parts
    decreases |parts|
  {
    if |parts| > 1 {
      var s := Join(parts, sep);
      var head := parts[0];
      assert s == head + [sep] + Join(parts[1..], sep);
      assert s[|head|] == sep;
      assert s[..|head|] == head;
      assert sep in s;
      IndexOfAt(s, sep, |head|);
      var i := IndexOf(s, sep);
      assert s[i + 1..] == Join(parts[1..], sep);
      SplitJoin(parts[1..], sep);
      assert parts == [head] + parts[1..];
    }
  }

  /** A character of the base64 alphabet of section 4 of RFC 4648, or the pad `=`. */
  predicate IsBase64Char(c: char)
  {
    ('A' <= c <= 'Z') || ('a' <= c <= 'z') || ('0' <= c <= '9') || c == '+' || c == '/' || c == '='
  }

  /** Text made of base64 characters only. */
  predicate IsBase64Text(s: string)
  {
    forall k :: 0 <= k < |s| ==> IsBase64Char(s[k])
  }

  /** The comma is not a base64 character, so base64 text never contains one. */
  lemma Base64HasNoComma(s: string)
    requires IsBase64Text(s)
    ensures ',' !in s
  {
  }
}

=== FILE: transform_route.dfy ===
/** The transform relay (frontend/app/api/transform-sketch/route.ts): `POST`
    checks the request's `sketch`, forwards it to the generation backend with a
    30-second timeout, and classifies the backend's outcome into a JSON reply. */
module TransformRoute {
  import opened Js
  import Decimal

  /** The backend base URL used when `FASTAPI_BACKEND_URL` is unset or empty. */
  const DefaultBackendUrl := "http://localhost:8000"

  /** The bound on one backend call, in milliseconds (`AbortSignal.timeout`). */
  const TimeoutMs: nat := 30000

  const NoSketchMessage := "No sketch provided"
  const FailedMessage := "Failed to transform sketch"
  const NoImageMessage := "No image returned from backend"

  /** The message of the `DOMException` an `AbortSignal.timeout` signal aborts with. */
  const TimeoutMessage := "The operation was aborted due to timeout"

  /** The `fetch` the relay issues: `POST <url>` with JSON body `body`. */
  datatype BackendRequest = BackendRequest(url: string, body: Value, timeoutMs: nat)

  /** How the backend call ends. `Replied` carries the HTTP status, the status
      text and what `response.json()` yields or throws. */
  datatype BackendOutcome =
    | Replied(status: nat, statusText: string, json: Result<Value>)
    | TimedOut
    | NetworkError(thrown: Thrown)

  /** The relay's observable behaviour: its reply, and the request it sent to
      the backend, if any. */
  datatype Exchange = Exchange(reply: Response, forwarded: Option<BackendRequest>)

  /** `process.env.FASTAPI_BACKEND_URL || "http://localhost:8000"` */
  function BackendUrl(env: Option<string>): (url: string)
    ensures Present(env) ==> url == env.value
    ensures !Present(env) ==> url == DefaultBackendUrl
  {
    if env.Some? && env.value != "" then env.value else DefaultBackendUrl
  }

  /** The request `transformSketchToImage` sends for `sketch`. */
  function Forward(sketch: Value, env: Option<string>): (req: BackendRequest)
    ensures req.body == Object(map["sketch" := sketch])
    ensures req.timeoutMs == 30000
    ensures req.url == BackendUrl(env) + "/transform-sketch"
  {
    BackendRequest(BackendUrl(env) + "/transform-sketch", Object(map["sketch" := sketch]), TimeoutMs)
  }

  /** The message of the error thrown for a non-ok backend status; `stringify`
      stands for `JSON.stringify`. */
  function StatusMessage(status: nat, errorData: Value, stringify: Value -> string): string
  {
    "Backend error: " + Decimal.Show(status) + " - " + stringify(errorData)
  }

  /** `transformSketchToImage` given the backend's outcome: the image on
      success, otherwise what it throws. */
  function Classify(outcome: BackendOutcome, stringify: Value -> string): (r: Result<Value>)
    // a timeout is an abort, never a success
    ensures outcome.TimedOut? ==> r == Err(Error(TimeoutMessage))
    ensures outcome.NetworkError? ==> r == Err(outcome.thrown)
    // a non-ok status is an error whose message carries that status
    ensures outcome.Replied? && !IsOk(outcome.status) ==>
              var errorData := if outcome.json.Ok? then outcome.json.value
                               else Object(map["error" := Str(outcome.statusText)]);
              r == Err(Error(StatusMessage(outcome.status, errorData, stringify)))
    // success exactly when the status is ok and the JSON body has a truthy `image`
    ensures r.Ok? <==>
              outcome.Replied? && IsOk(outcome.status) && outcome.json.Ok?
              && Get(outcome.json.value, "image").Ok? && Truthy(Get(outcome.json.value, "image").value)
    ensures r.Ok? ==> r.value == outcome.json.value.fields["image"]
    // an ok body that cannot be parsed throws the parse error
    ensures outcome.Replied? && IsOk(outcome.status) && outcome.json.Err? ==> r == Err(outcome.json.thrown)
    // an ok JSON body (object, array or primitive) without a truthy `image` is an error
    ensures (outcome.Replied? && IsOk(outcome.status) && outcome.json.Ok? && Get(outcome.json.value, "image").Ok?
             && !Truthy(Get(outcome.json.value, "image").value)) ==>
              r == Err(Error(NoImageMessage))
  {
    match outcome
    case TimedOut => Err(Error(TimeoutMessage))
    case NetworkError(t) => Err(t)
    case Replied(status, statusText, json) =>
      if !IsOk(status) then
        var errorData := if json.Ok? then json.value else Object(map["error" := Str(statusText)]);
        Err(Error(StatusMessage(status, errorData, stringify)))
      else if json.Err? then Err(json.thrown)
      else
        match Get(json.value, "image")
        case Err(t) => Err(t)
        case Ok(image) => if !Truthy(image) then Err(Error(NoImageMessage)) else Ok(image)
  }

  /** The reply of the `catch` block. */
  function Failure(t: Thrown): (r: Response)
    ensures r.status == 500 && Field(r, "error") == Some(Str(FailedMessage))
  {
    Response(500, Object(map[
      "error" := Str(FailedMessage),
      "details" := Str(MessageOr(t, "Unknown error"))]))
  }

  /** The route handler. `body` is what `request.json()` yields or throws and
      `backend` is the backend's behaviour, consulted only if a request is sent. */
  function Post(body: Result<Value>, env: Option<string>, backend: BackendRequest -> BackendOutcome,
                stringify: Value -> string): (x: Exchange)
    // the destructuring `const { sketch } = ...` throws on `null` and `undefined`
    ensures body.Err? || body.value.Null? || body.value.Undefined? ==>
              x.forwarded == None && x.reply.status == 500
    // ... and the `catch` answers "Failed to transform sketch" with the thrown details
    ensures body.Err? ==> x == Exchange(Failure(body.thrown), None)
    ensures body.Ok? && (body.value.Null? || body.value.Undefined?) ==>
              x == Exchange(Failure(Get(body.value, "sketch").thrown), None)
    // a falsy sketch is refused before the backend is contacted
    ensures body.Ok? && Get(body.value, "sketch").Ok? && !Truthy(Get(body.value, "sketch").value) ==>
              x == Exchange(ErrorResponse(400, NoSketchMessage), None)
    // a truthy sketch is forwarded unchanged, and the reply follows the classification
    ensures body.Ok? && Get(body.value, "sketch").Ok? && Truthy(Get(body.value, "sketch").value) ==>
              var req := Forward(Get(body.value, "sketch").value, env);
              && x.forwarded == Some(req)
              && (Classify(backend(req), stringify).Ok? ==>
                    x.reply == Response(200, Object(map[
                      "success" := Bool(true), "image" := Classify(backend(req), stringify).value])))
              && (Classify(backend(req), stringify).Err? ==> x.reply == Failure(Classify(backend(req), stringify).thrown))
    ensures x.reply.status in {200, 400, 500}
  {
    match body
    case Err(t) => Exchange(Failure(t), None)
    case Ok(json) =>
      match Get(json, "sketch")
      case Err(t) => Exchange(Failure(t), None)
      case Ok(sketch) =>
        if !Truthy(sketch) then Exchange(ErrorResponse(400, NoSketchMessage), None)
        else
          var req := Forward(sketch, env);
          match Classify(backend(req), stringify)
          case Err(t) => Exchange(Failure(t), Some(req))
          case Ok(image) => Exchange(Response(200, Object(map["success" := Bool(true), "image" := image])), Some(req))
  }

  /** A backend that answers HTTP 500 makes the relay answer 500 with an error
      whose details name the status; it never throws past the handler. */
  lemma ServerErrorIsReported(sketch: Value, env: Option<string>, statusText: string, json: Result<Value>,
                              stringify: Value -> string)
    requires Truthy(sketch)
    ensures var backend := (req: BackendRequest) => Replied(500, statusText, json);
            var x := Post(Ok(Object(map["sketch" := sketch])), env, backend, stringify);
            var errorData := if json.Ok? then json.value else Object(map["error" := Str(statusText)]);
            && x.reply.status == 500
            && Field(x.reply, "details") == Some(Str(StatusMessage(500, errorData, stringify)))
  {
  }

  /** The status text inside a status error message is the decimal of the
      status, so the status can be read back from the message. */
  lemma StatusReadableFromMessage(status: nat, errorData: Value, stringify: Value -> string)
    ensures var m := StatusMessage(status, errorData, stringify);
            var digits := Decimal.Show(status);
            && m[15..15 + |digits|] == digits
            && Decimal.Parse(m[15..15 + |digits|]) == status
  {
    Decimal.ParseShow(status);
  }
}

=== FILE: transformed_image.dfy ===
/** The result viewer (frontend/components/transformed-image.tsx): what it
    shows for its props, and what its Clear and Download buttons do. */
module TransformedImage {
  import opened Js
  import Decimal

  /** The component's props. `hasOnClear`/`hasOnDownload` say whether the
      optional callbacks were passed. */
  datatype Props = Props(imageUrl: Option<string>, isTransforming: bool, hasOnClear: bool, hasOnDownload: bool)

  /** The three things the display area can hold. */
  datatype Display = Spinner | Picture(src: string) | Placeholder

  /** `isTransforming ? spinner : imageUrl ? <img> : placeholder` */
  function DisplayOf(p: Props): (d: Display)
    ensures d.Spinner? <==> p.isTransforming
    ensures d.Picture? <==> !p.isTransforming && Present(p.imageUrl)
    ensures d.Placeholder? <==> !p.isTransforming && !Present(p.imageUrl)
    ensures d.Picture? ==> d.src == p.imageUrl.value
  {
    if p.isTransforming then Spinner
    else if p.imageUrl.Some? && p.imageUrl.value != "" then Picture(p.imageUrl.value)
    else Placeholder
  }

  /** Clear Result and Download are both `disabled={!imageUrl}`. */
  predicate ButtonsEnabled(p: Props)
  {
    Present(p.imageUrl)
  }

  /** The "✓ Transformed" badge is rendered under `{imageUrl && ...}`. */
  predicate BadgeShown(p: Props)
  {
    Present(p.imageUrl)
  }

  /** A browser download started by clicking a temporary link. */
  datatype Download = Download(href: string, filename: string)

  /** What a download attempt does: the download started, if any, and whether
      `onDownload` was called. */
  datatype DownloadEffect = DownloadEffect(started: Option<Download>, notified: bool)

  const FilenamePrefix := "transformed-"
  const FilenameSuffix := ".png"

  /** The download file name for epoch time `now` (`Date.now()`, in ms). */
  function Filename(now: nat): string
  {
    FilenamePrefix + Decimal.Show(now) + FilenameSuffix
  }

  /** `handleDownload` at epoch time `now`. */
  function HandleDownload(p: Props, now: nat): (e: DownloadEffect)
    ensures !Present(p.imageUrl) ==> e == DownloadEffect(None, false)
    ensures Present(p.imageUrl) ==> e.started == Some(Download(p.imageUrl.value, Filename(now)))
    ensures e.notified <==> e.started.Some? && p.hasOnDownload
  {
    if !(p.imageUrl.Some? && p.imageUrl.value != "") then DownloadEffect(None, false)
    else DownloadEffect(Some(Download(p.imageUrl.value, Filename(now))), p.hasOnDownload)
  }

  /** A click on the Download button: a disabled button ignores it. */
  function ClickDownload(p: Props, now: nat): (e: DownloadEffect)
    ensures e.started.Some? <==> ButtonsEnabled(p)
    ensures e.notified ==> e.started.Some?
  {
    if ButtonsEnabled(p) then HandleDownload(p, now) else DownloadEffect(None, false)
  }

  /** A click on Clear Result: whether `onClear` runs. It runs exactly when a
      callback was given and the viewer would show a picture once idle. */
  function ClickClear(p: Props): (called: bool)
    ensures called <==> p.hasOnClear && DisplayOf(p.(isTransforming := false)).Picture?
  {
    ButtonsEnabled(p) && p.hasOnClear
  }

  /** While the spinner hides an earlier result, the badge is still shown and
      Clear Result and Download stay enabled: the buttons and the badge follow
      `imageUrl`, not the busy flag. */
  lemma StaleResultStaysActionable(p: Props, now: nat)
    requires p.isTransforming && Present(p.imageUrl)
    ensures DisplayOf(p) == Spinner
    ensures BadgeShown(p) && ButtonsEnabled(p)
    ensures ClickClear(p) <==> p.hasOnClear
    ensures ClickDownload(p, now).started == Some(Download(p.imageUrl.value, Filename(now)))
  {
  }

  /** The epoch time a download file name was made at, read back from the name. */
  function TimestampOf(name: string): (t: Option<nat>)
  {
    if |name| >= |FilenamePrefix| + |FilenameSuffix|
       && name[..|FilenamePrefix|] == FilenamePrefix
       && name[|name| - |FilenameSuffix|..] == FilenameSuffix
       && Decimal.AllDigits(name[|FilenamePrefix|..|name| - |FilenameSuffix|])
    then Some(Decimal.Parse(name[|FilenamePrefix|..|name| - |FilenameSuffix|]))
    else None
  }

  /** The file name records the time of the download exactly. */
  lemma FilenameRoundTrip(now: nat)
    ensures TimestampOf(Filename(now)) == Some(now)
  {
    var name := Filename(now);
    var digits := Decimal.Show(now);
    assert name[..|FilenamePrefix|] == FilenamePrefix;
    assert name[|name| - |FilenameSuffix|..] == FilenameSuffix;
    assert name[|FilenamePrefix|..|name| - |FilenameSuffix|] == digits;
    Decimal.ParseShow(now);
  }
}

=== FILE: upload_route.dfy ===
/** The upload route (`POST` of frontend/app/api/upload/route.ts): it checks the
    `file` form field in a fixed order (present, image type, size) and answers
    with a data URL of the file's bytes, or a 400/500 error. */
module UploadRoute {
  import opened Js
  import opened Text

  /** The largest accepted file, in bytes: 10 MiB. */
  const MaxFileSize: nat := 10 * 1024 * 1024

  const NoFileMessage := "No file provided"
  const NotImageMessage := "File must be an image"
  const TooLargeMessage := "File size exceeds 10MB limit"
  const FailedMessage := "Failed to process upload"

  /** A `File` entry of a multipart form. `contents` is what `arrayBuffer()`
      yields, or what it throws. */
  datatype File = File(name: string, mimeType: string, size: nat, contents: Result<seq<byte>>)

  /** A form entry: text, or a file. */
  datatype Entry = TextEntry(text: string) | FileEntry(file: File)

  /** What `request.formData()` yields (entries by name) or throws. */
  type Form = Result<map<string, Entry>>

  /** The error reply the `catch` block builds from any thrown value. */
  function Failure(t: Thrown): (r: Response)
    ensures r.status == 500
    ensures Field(r, "error") == Some(Str(FailedMessage))
    ensures Field(r, "success") == None
  {
    Response(500, Object(map[
      "error" := Str(FailedMessage),
      "details" := Str(MessageOr(t, "Unknown error"))]))
  }

  /** The RFC 2397 data URL the route returns: `data:<type>;base64,<payload>`. */
  function DataUrl(mimeType: string, payload: string): string
  {
    "data:" + mimeType + ";base64," + payload
  }

  /** The success record. */
  function Success(f: File, url: string): Response
  {
    Response(200, Object(map[
      "success" := Bool(true),
      "fileUrl" := Str(url),
      "fileName" := Str(f.name),
      "fileSize" := Num(f.size)]))
  }

  /** A file that passes the route's checks: an image type and at most `MaxFileSize`. */
  predicate Acceptable(f: File)
  {
    StartsWith(f.mimeType, "image/") && f.size <= MaxFileSize
  }

  /** The route handler. `base64` stands for `Buffer.from(..).toString("base64")`.
      A text entry is falsy only when empty; a non-empty one has no `type`, so
      `file.type.startsWith` throws and the handler answers 500. */
  function Post(form: Form, base64: seq<byte> -> string): (r: Response)
    // request.formData() threw
    ensures form.Err? ==> r == Failure(form.thrown)
    // no usable `file` field
    ensures (form.Ok? && ("file" !in form.value || form.value["file"] == TextEntry(""))) ==>
              r == ErrorResponse(400, NoFileMessage)
    // a non-empty text entry passes `!file` and throws at `file.type.startsWith`
    ensures (form.Ok? && "file" in form.value && form.value["file"].TextEntry? && form.value["file"].text != "") ==>
              r.status == 500 && Field(r, "error") == Some(Str(FailedMessage))
    // the checks run in order: type before size
    ensures form.Ok? && "file" in form.value && form.value["file"].FileEntry? ==>
              var f := form.value["file"].file;
              && (!StartsWith(f.mimeType, "image/") ==> r == ErrorResponse(400, NotImageMessage))
              && (StartsWith(f.mimeType, "image/") && f.size > MaxFileSize ==> r == ErrorResponse(400, TooLargeMessage))
              && (Acceptable(f) && f.contents.Err? ==> r == Failure(f.contents.thrown))
              && (Acceptable(f) && f.contents.Ok? ==> r == Success(f, DataUrl(f.mimeType, base64(f.contents.value))))
    // status 200 only for an acceptable, readable file
    ensures r.status == 200 <==>
              form.Ok? && "file" in form.value && form.value["file"].FileEntry?
              && Acceptable(form.value["file"].file) && form.value["file"].file.contents.Ok?
    ensures r.status in {200, 400, 500}
    // only a success carries `success` and `fileUrl`
    ensures r.status != 200 ==> Field(r, "success") == None && Field(r, "fileUrl") == None
  {
    match form
    case Err(t) => Failure(t)
    case Ok(fields) =>
      if "file" !in fields then ErrorResponse(400, NoFileMessage)
      else
        match fields["file"]
        case TextEntry(text) =>
          if text == "" then ErrorResponse(400, NoFileMessage)
          else Failure(Error("Cannot read properties of undefined (reading 'startsWith')"))
        case FileEntry(f) =>
          if !StartsWith(f.mimeType, "image/") then ErrorResponse(400, NotImageMessage)
          else if f.size > MaxFileSize then ErrorResponse(400, TooLargeMessage)
          else
            match f.contents
            case Err(t) => Failure(t)
            case Ok(bytes) => Success(f, DataUrl(f.mimeType, base64(bytes)))
  }

  /** A non-image file gets the type error whatever its size: the size check
      is never reached. */
  lemma TypeCheckedBeforeSize(name: string, mimeType: string, size: nat, contents: Result<seq<byte>>,
                              base64: seq<byte> -> string)
    requires !StartsWith(mimeType, "image/")
    ensures Post(Ok(map["file" := FileEntry(File(name, mimeType, size, contents))]), base64)
            == ErrorResponse(400, NotImageMessage)
  {
  }

  /** The size limit is inclusive: exactly 10 MiB is accepted, one byte more is not. */
  lemma SizeBoundary(f: File, base64: seq<byte> -> string)
    requires StartsWith(f.mimeType, "image/") && f.contents.Ok?
    ensures f.size == MaxFileSize ==> Post(Ok(map["file" := FileEntry(f)]), base64).status == 200
    ensures f.size == MaxFileSize + 1 ==>
              Post(Ok(map["file" := FileEntry(f)]), base64) == ErrorResponse(400, TooLargeMessage)
  {
  }

  /** The `fileUrl` of a success record splits at its only comma into the
      `data:<type>;base64` header and exactly the base64 text of the bytes,
      provided the type has no comma and the encoder emits base64 characters. */
  lemma SuccessUrlSplitsAtComma(f: File, base64: seq<byte> -> string)
    requires Acceptable(f) && f.contents.Ok?
    requires ',' !in f.mimeType
    requires IsBase64Text(base64(f.contents.value))
    ensures var url := Field(Post(Ok(map["file" := FileEntry(f)]), base64), "fileUrl");
            && url.Some? && url.value.Str?
            && Split(url.value.s, ',') == ["data:" + f.mimeType + ";base64", base64(f.contents.value)]
  {
    var payload := base64(f.contents.value);
    Base64HasNoComma(payload);
    var header := "data:" + f.mimeType + ";base64";
    assert ',' !in header by {
      assert header == "data:" + f.mimeType + ";base64";
      forall k | 0 <= k < |header|
        ensures header[k] != ','
      {
        if k < 5 {
        } else if k < 5 + |f.mimeType| {
          assert header[k] == f.mimeType[k - 5];
        } else {
        }
      }
    }
    SplitJoin([header, payload], ',');
    assert Join([header, payload], ',') == DataUrl(f.mimeType, payload);
  }
}
